=== FILE: README.md ===
# Retroactivity: a Dafny model of per-record time travel

The `retroactivity` gem gives an ActiveRecord class that includes the
`Retroactive` concern an append-only log of attribute-level changes
(`Retroactivity::LoggedChange`). Each logged change is anchored at a valid
time `as_of` and holds `data`, a hash `attr => [previous_value, new_value]`.
An instance can be moved through valid time with `as_of!(t)`, or copied there
with `as_of(t)`. Moving back unapplies the changes in `(t, current]`, newest
first. Moving forward applies the changes in `(current, t]`, oldest first.
A save made while an instance is frozen in the past is reconciled with the
present: a column that a later change has set since is not written to the
row. The save is logged at the frozen time, and the requested values are put
back in memory afterwards.

This project models that core as pure functions over immutable values:

- `values.dfy` (`Values`): column values, attribute bags (`Attributes`), where a
  nil column is an absent key, and the two errors. `Outcome` describes a call
  that mutates in place: when it raises, it carries the receiver as the
  exception left it.
- `logged_change.dfy` (`Changes`): a logged change, and `apply_to!` /
  `unapply_to!` entry by entry, with no rollback.
- `scopes.dfy` (`Scopes`): the `between`, `chronological` and
  `reverse_chronological` scopes.
- `replay.dfy` (`Replay`): `each(&:apply!)` and `each(&:unapply!)` over a list.
- `time_travel.dfy` (`TimeTravel`): `_current_time`, `as_of!` and `as_of`.
- `history.dfy` (`History`): the meaning of a log. The state at `t` is the
  replay, oldest first, of every change anchored at or before `t` onto a
  record that does not exist yet. Time travel is proved to agree with it.
- `reconcile.dfy` (`Reconcile`): the `before_save` and `after_save` callbacks,
  and one save as a single step over the instance, its row and its log.
- `scenarios.dfy` (`Scenarios`): the gem's own update examples on concrete
  values, in hours relative to the present.

Wall-clock time is the parameter `now`. The two reads of `Time.now` inside
one call are taken to be the same instant.

Behaviour of the gem that the model keeps as it is:

- `apply_to!` and `unapply_to!` have no rollback: they raise in the middle of
  their walk, so the entries before the mismatch stay written. `ApplyTo` and
  `UnapplyTo` return that partially written state, and
  `ApplyStopsAtFirstMismatch` / `UnapplyStopsAtFirstMismatch` say exactly
  what it is.
- `as_of!` has no rollback either. When a change raises, the instance is left
  as far as the replay got, and `@frozen_at` is not updated.
- The logged change of a save holds `saved_changes`. The stripped
  (overridden) columns were reverted before the write, so they are not
  logged.
- A logged change is appended on every save, even one with empty `data`.
- `retroactive.rb:14,16` call `unapply!` / `apply!` with no argument, and the
  tests call `logged_change.apply!`. `logged_change.rb:13,23` define
  `apply_to!(obj)` / `unapply_to!(obj)` instead. The model has one pair with
  the `apply_to!` semantics, applied to the instance that owns the log.
- `chronological` has no tie-breaker. The model sorts stably: changes with
  equal `as_of` keep their log (insertion) order, and
  `reverse_chronological` is the exact reverse of that.

## Model

| member | source | states |
|---|---|---|
| Changes.ApplyTo | lib/retroactivity/logged_change.rb:13-21 | Succeeds exactly when every entry's previous value is what the object holds. Afterwards every listed column holds its new value. Otherwise it raises `CannotApplyError`. Columns not in the data are never changed, not even on failure. |
| Changes.UnapplyTo | lib/retroactivity/logged_change.rb:23-31 | Succeeds exactly when every entry's new value is what the object holds. Afterwards every listed column holds its previous value. Otherwise it raises `CannotApplyError`. Columns not in the data are never changed. |
| Changes.ApplyUnapplyRoundTrip | lib/retroactivity/logged_change.rb:13-31 | Applying a change to `s` succeeds with `s'` if and only if unapplying it from `s'` succeeds with `s`. This relies on the hash keys being distinct. |
| Changes.ApplyStopsAtFirstMismatch | lib/retroactivity/logged_change.rb:14-20 | When `apply_to!` raises, there is a first mismatching entry `k`. Entries before `k` matched and now hold their new values. Every column they do not name, entry `k`'s included, is as it was. |
| Changes.UnapplyIsFlippedApply | lib/retroactivity/logged_change.rb:13-31 | `unapply_to!` of a change is `apply_to!` of the same change with previous and new values swapped, on every state, failures included. |
| Changes.UnapplyStopsAtFirstMismatch | lib/retroactivity/logged_change.rb:24-30 | When `unapply_to!` raises, the entries before the first mismatch are restored to their previous values, and every other column is as it was. |
| Changes.ApplyToFrame | lib/retroactivity/logged_change.rb:14-20 | A change reads and writes only its own columns. From any state that agrees on those columns it succeeds too, with the same values there and the state's own values elsewhere. |
| Scopes.Between | lib/retroactivity/logged_change.rb:9 | Holds each logged change with `start < as_of <= finish`, as often as the log holds it, and nothing else. It is empty whenever `start >= finish`. |
| Scopes.Chronological | lib/retroactivity/logged_change.rb:10 | The same changes, as a multiset, in ascending `as_of` order. |
| Scopes.ReverseChronological | lib/retroactivity/logged_change.rb:11 | The same changes, as a multiset, in descending `as_of` order. |
| Scopes.SelectChronological | lib/retroactivity/logged_change.rb:9-10 | Ordering and then selecting a window gives the same list as selecting and then ordering. |
| Scopes.WindowSplit | lib/retroactivity/logged_change.rb:9-10 | For `a <= b <= c`, the ordered window `(a, c]` is the ordered window `(a, b]` followed by the ordered window `(b, c]`. |
| Replay.Touched | lib/retroactivity/retroactive.rb:48 | Holds every column named by some change of the list, and only columns that some change's data names. |
| Replay.ApplyAll | lib/retroactivity/retroactive.rb:16 | Replaying a list forward raises only `CannotApplyError`, and it leaves every column that no change of the list names as it was, also when it stops early. |
| Replay.UnapplyAll | lib/retroactivity/retroactive.rb:14 | Replaying a list backward raises only `CannotApplyError`, and it leaves every column no change names as it was. |
| Replay.ReplayRoundTrip | lib/retroactivity/retroactive.rb:13-17 | Applying a list to `s` succeeds with `s'` if and only if unapplying the reversed list from `s'` succeeds with `s`. |
| TimeTravel.CurrentTime | lib/retroactivity/retroactive.rb:30-32 | The frozen time when `@frozen_at` is set, `now` otherwise. This is a plain definition. |
| TimeTravel.Travel | lib/retroactivity/retroactive.rb:13-17 | Only columns written by a change in the window crossed can change, in either direction. The only possible error is `CannotApplyError`. An empty window leaves the attributes as they are. |
| TimeTravel.AsOfBang | lib/retroactivity/retroactive.rb:12-20 | On success, only the attributes and `@frozen_at`, which becomes `time`, change. On failure, `@frozen_at` is kept and only columns of crossed changes may differ. An empty window only sets `@frozen_at`. |
| TimeTravel.AsOf | lib/retroactivity/retroactive.rb:22-26 | Yields a copy at `time` that differs from the receiver only in attributes of crossed changes and in `@frozen_at`. A raising replay yields only `CannotApplyError`. `History.AsOfMatchesHistoryCopy` states that the copy holds the log's state at `time`. |
| TimeTravel.TravelCompose | lib/retroactivity/retroactive.rb:12-20 | Two successful travels `a -> b -> c` end where the direct travel `a -> c` ends, for every order of `a`, `b` and `c`. |
| TimeTravel.PathIndependence | lib/retroactivity/retroactive.rb:12-20 | When both calls succeed, `as_of!(t1)` followed by `as_of!(t2)` yields the same instance as `as_of!(t2)` alone. |
| TimeTravel.AsOfBangIdempotent | lib/retroactivity/retroactive.rb:12-20 | A second `as_of!(t)` after a successful one changes nothing. |
| History.AsOfMatchesHistory | lib/retroactivity/retroactive.rb:12-20 | From an instance that agrees with its log, `as_of!(t)` succeeds exactly when the log's state at `t` can be rebuilt, reaches exactly that state, never fails going back, and leaves an instance that agrees with the log again. |
| History.AsOfMatchesHistoryCopy | lib/retroactivity/retroactive.rb:22-26 | From an instance that agrees with its log, `as_of(t)` succeeds exactly when the log's state at `t` can be rebuilt, and then returns a copy that holds exactly that state and is frozen at `t`. |
| History.BeforeFirstChange | spec/retroactivity/retroactive_spec.rb:67-75 | From an instance that agrees with its log, travelling before the first logged change clears every column, `id` included, and only sets `@frozen_at`. |
| History.AsOfIndependentOfStart | spec/retroactivity/retroactive_spec.rb:171-209 | When the first instance's travel to `t` succeeds, two instances that agree with the same log reach the same attributes at `t`, wherever each was frozen before. |
| Reconcile.Overrides | lib/retroactivity/retroactive.rb:42-49 | Empty for an instance never moved in time. `CannotMakeFutureDatedUpdatesError` when frozen after `now`. Otherwise, exactly the columns named by some change with `frozen_at < as_of <= now`. |
| Reconcile.ChangesToSave | lib/retroactivity/retroactive.rb:34-37 | Holds one entry `[in database, in memory]` for each column whose two values differ, and no other entry. |
| Reconcile.PostSaveValues | lib/retroactivity/retroactive.rb:35-37 | Its keys are exactly the pending changes on overridden columns, each mapped to its requested value. |
| Reconcile.UndoPendingChanges | lib/retroactivity/retroactive.rb:51-53 | Each given column reads its database value again, and every other column keeps its in-memory value. |
| Reconcile.AssignAll | lib/retroactivity/retroactive.rb:61-63 | Every pending column reads the value it is given, and the others are unchanged. |
| Reconcile.WriteRow | lib/retroactivity/retroactive.rb:56-57 | The row written by the save: each saved entry's column holds its new value, and every column no entry names keeps its stored value. |
| Reconcile.Save | lib/retroactivity/retroactive.rb:34-66 | Fails with `CannotMakeFutureDatedUpdatesError`, and only then, when frozen after `now`. Otherwise it appends exactly one change at `_current_time` and keeps the in-memory values. The row takes the requested value of every column not overridden and keeps its own elsewhere. The logged data is exactly the written changes, as `[old row value, new value]`. |
| Reconcile.SaveKeepsRowHistory | lib/retroactivity/retroactive.rb:55-59 | If the log replayed up to `now` gives the stored row, the longer log after the save replayed up to `now` gives the newly stored row. |
| Reconcile.SaveRecordsEditsAtOwnTime | lib/retroactivity/retroactive.rb:34-66 | If the log replayed up to `now` gives the stored row, then after a successful save the log's state at the instance's own time holds the requested value of every column not overridden. Overridden columns keep their earlier history: a retroactive edit of them is recorded nowhere. |
| Scenarios.RollBackOneChange | spec/retroactivity/retroactive_spec.rb:287-291 | Rolling the present record back to 29 hours ago undoes only the change that set `bar` to 8. |
| Scenarios.RetroactiveUpdate | spec/retroactivity/retroactive_spec.rb:259-284 | Saving `foo = "hello", bar = 3` from 29 hours ago writes `foo` to the row, and `bar` stays 8. The instance keeps both requested values, and the log gains one change at the frozen time holding only the `foo` entry. |
| Scenarios.FutureDatedUpdate | spec/retroactivity/retroactive_spec.rb:302-325 | A save from an instance moved five days ahead raises `CannotMakeFutureDatedUpdatesError`. |

## Left out

- ActiveRecord persistence, the polymorphic `has_many` / `belongs_to` association, callback registration (`retroactive.rb:7-8`) and transactions. A save is one pure step over the instance, its row and its log.
- TimeTravel.PathIndependence: the gem looks up an instance's changes through `has_many :logged_changes` (`retroactive.rb:10`), which keys the query by the in-memory `id`. Travelling to before the record's creation clears `id`, so afterwards the gem's `as_of!` and saves see no changes, and a later `as_of!(now)` leaves the record all nil. The model's log is a parameter and does not depend on `id`, so the lemma also holds through such a start. In the gem it holds only when the intermediate instance keeps its `id`.
- TimeTravel.TravelCompose: the same `id` lookup applies. In the gem, composing through an intermediate time before creation loses the log, and the model does not model that loss.
- History.AsOfIndependentOfStart: the same `id` lookup applies. In the gem, an instance frozen before its creation has a nil `id` and finds no changes, so the lemma matches the gem only for starting instances that keep their `id`.
- A raise inside the `after_save` callback, and a database error, which would roll the save back. Neither can happen in the model.
- Wall-clock time and Timecop. `now` is a parameter, and both reads of `Time.now` in one call are one instant.
- TimeTravel.AsOf: does not model Ruby `clone` aliasing. ActiveRecord's `clone` shares the attribute set with the receiver, so the gem's `as_of` also rewrites the receiver's attributes. The gem's tests compare the instance by id and do not see this. The model's `AsOf` works on values and returns a separate copy, so it does not model the shared attributes.
- The class-level `.as_of` projection exercised in the tests. The core has no implementation of it.
- `lib/retroactivity/logged_change_item.rb`: an ActiveRecord model with no logic.
- The database's ordering of changes with equal `as_of`. The model fixes it to log order, as described above.
- JSON encoding of `data`, and values other than nil, strings and integers.
- Timestamp columns (`created_at`, `updated_at`). The example table has none, so they never appear in `saved_changes`.
- Writes to names that are not columns of the table. `changes_to_save` sees only columns.
- The no-argument `apply!` / `unapply!` as literally called. It is modelled as `apply_to!` / `unapply_to!` on the owning instance, as described above.

=== FILE: history.dfy ===
/** What the log means: the state of a record at a valid time `t` is what
    replaying, oldest first, every change anchored at or before `t` onto a
    record that does not exist yet (every column nil) produces. This is the
    reference the per-instance time travel of `as_of!` is measured against. */
module History {
  import opened Values
  import opened Changes
  import opened Scopes
  import opened Replay
  import opened TimeTravel

  /** The record as of `t` according to the whole log. */
  function StateAt(log: seq<LoggedChange>, t: int): Outcome<Attributes>
  {
    ApplyAll(Chronological(UpTo(log, t)), map[])
  }

  /** The instance's attributes are the log's state at its current time. */
  predicate Consistent(inst: Instance, log: seq<LoggedChange>, now: int)
  {
    StateAt(log, CurrentTime(inst, now)) == Done(inst.mem)
  }

  /** For an instance that agrees with its log, `as_of!(t)` reaches exactly
      the log's state at `t`: it succeeds exactly when that state can be
      rebuilt, going back in time always succeeds, and the instance it
      yields agrees with the log again. */
  lemma AsOfMatchesHistory(inst: Instance, log: seq<LoggedChange>, t: int, now: int)
    requires Consistent(inst, log, now)
    ensures AsOfBang(inst, log, t, now).Done? <==> StateAt(log, t).Done?
    ensures AsOfBang(inst, log, t, now).Done? ==> AsOfBang(inst, log, t, now).value.mem == StateAt(log, t).value
    ensures t <= CurrentTime(inst, now) ==> AsOfBang(inst, log, t, now).Done?
    ensures AsOfBang(inst, log, t, now).Done? ==> Consistent(AsOfBang(inst, log, t, now).value, log, now)
  {
    var c := CurrentTime(inst, now);
    if t <= c {
      HistoryGoingBack(log, inst.mem, t, c);
    } else {
      HistoryGoingForward(log, inst.mem, c, t);
    }
  }

  /** `as_of(t)` on an instance that agrees with its log returns a copy
      holding exactly the log's state at `t`, frozen at `t`, and fails
      exactly when that state cannot be rebuilt. */
  lemma AsOfMatchesHistoryCopy(inst: Instance, log: seq<LoggedChange>, t: int, now: int)
    requires Consistent(inst, log, now)
    ensures AsOf(inst, log, t, now).Ok? <==> StateAt(log, t).Done?
    ensures AsOf(inst, log, t, now).Ok? ==>
              AsOf(inst, log, t, now).value == inst.(mem := StateAt(log, t).value, frozenAt := Some(t))
  {
    AsOfMatchesHistory(inst, log, t, now);
  }

  lemma HistoryGoingBack(log: seq<LoggedChange>, mem: Attributes, t: int, c: int)
    requires t <= c && StateAt(log, c) == Done(mem)
    ensures StateAt(log, t).Done? && Travel(log, mem, c, t) == StateAt(log, t)
  {
    var before, window := Chronological(UpTo(log, t)), Chronological(Between(log, t, c));
    HistorySplit(log, t, c);
    ApplyAllConcat(before, window, map[]);
    ReplayRoundTrip(window, StateAt(log, t).value, mem);
  }

  lemma HistoryGoingForward(log: seq<LoggedChange>, mem: Attributes, c: int, t: int)
    requires c < t && StateAt(log, c) == Done(mem)
    ensures Travel(log, mem, c, t) == StateAt(log, t)
  {
    HistorySplit(log, c, t);
    ApplyAllConcat(Chronological(UpTo(log, c)), Chronological(Between(log, c, t)), map[]);
  }

  /** Travelling to a time before the first change clears every column,
      the primary key `id` included: the record did not exist yet. */
  lemma BeforeFirstChange(inst: Instance, log: seq<LoggedChange>, t: int, now: int)
    requires Consistent(inst, log, now)
    requires forall c :: c in log ==> t < c.asOf
    ensures AsOfBang(inst, log, t, now) == Done(inst.(mem := map[], frozenAt := Some(t)))
    ensures forall a :: Get(AsOfBang(inst, log, t, now).value.mem, a) == Nil
  {
    SelectNothing(log, Span(None, t));
    AsOfMatchesHistory(inst, log, t, now);
  }

  /** The starting point does not matter: two instances that agree with the
      same log reach the same attributes at `t`, wherever each was frozen. */
  lemma AsOfIndependentOfStart(i1: Instance, i2: Instance, log: seq<LoggedChange>, t: int, now: int)
    requires Consistent(i1, log, now) && Consistent(i2, log, now)
    requires AsOfBang(i1, log, t, now).Done?
    ensures AsOfBang(i2, log, t, now).Done?
    ensures AsOfBang(i1, log, t, now).value.mem == AsOfBang(i2, log, t, now).value.mem
  {
    AsOfMatchesHistory(i1, log, t, now);
    AsOfMatchesHistory(i2, log, t, now);
  }
}

=== FILE: logged_change.dfy ===
/** One entry of the change log (`Retroactivity::LoggedChange`) and the two
    primitives that move an object one entry forward or backward:
    `apply_to!` and `unapply_to!`. */
module Changes {
  import opened Values

  /** One `attr => [previous_value, new_value]` pair of a change's `data`. */
  datatype Item = Item(attr: Attr, previousValue: Value, newValue: Value)

  predicate DistinctAttrs(items: seq<Item>)
  {
    forall i, j :: 0 <= i < j < |items| ==> items[i].attr != items[j].attr
  }

  /** A change's `data`: a Ruby Hash, so entries are ordered and keys distinct. */
  type Data = items: seq<Item> | DistinctAttrs(items) witness []

  /** A logged change: the valid time it is anchored at and its data. */
  datatype LoggedChange = LoggedChange(asOf: int, data: Data)

  /** The keys of a change's data. */
  function AttrsOf(items: seq<Item>): set<Attr>
  {
    set i | 0 <= i < |items| :: items[i].attr
  }

  /** The keys of an entry followed by more entries. */
  lemma AttrsOfCons(first: Item, rest: seq<Item>)
    ensures AttrsOf([first] + rest) == {first.attr} + AttrsOf(rest)
  {
    var items := [first] + rest;
    forall a | a in AttrsOf(rest) ensures a in AttrsOf(items) {
      var i :| 0 <= i < |rest| && rest[i].attr == a;
      assert items[i + 1].attr == a;
    }
    forall a | a in AttrsOf(items) ensures a == first.attr || a in AttrsOf(rest) {
      var i :| 0 <= i < |items| && items[i].attr == a;
      if i > 0 {
        assert rest[i - 1].attr == a;
      }
    }
    assert items[0].attr == first.attr;
  }

  /** Every entry's previous value is what the object currently holds. */
  predicate PreviousMatches(items: seq<Item>, s: Attributes)
  {
    forall i :: 0 <= i < |items| ==> Get(s, items[i].attr) == items[i].previousValue
  }

  /** Every entry's new value is what the object currently holds. */
  predicate NewMatches(items: seq<Item>, s: Attributes)
  {
    forall i :: 0 <= i < |items| ==> Get(s, items[i].attr) == items[i].newValue
  }

  /** `apply_to!(obj)`: walks the data in order; each entry first checks that
      the object holds the previous value (raising `CannotApplyError`
      otherwise) and then writes the new value. There is no rollback: entries
      visited before a mismatch stay written. */
  function ApplyTo(data: Data, obj: Attributes): (r: Outcome<Attributes>)
    ensures r.Done? <==> PreviousMatches(data, obj)
    ensures r.Done? ==> NewMatches(data, r.value)
    ensures r.Raised? ==> r.error == CannotApplyError
    ensures forall a :: a !in AttrsOf(data) ==> Get(r.State(), a) == Get(obj, a)
    decreases |data|
  {
    if data == [] then Done(obj)
    else if Get(obj, data[0].attr) != data[0].previousValue then Raised(CannotApplyError, obj)
    else
      var r := ApplyTo(data[1..], Set(obj, data[0].attr, data[0].newValue));
      assert forall i :: 0 < i < |data| ==> data[i].attr != data[0].attr && data[i] == data[1..][i - 1];
      assert forall a :: a !in AttrsOf(data) ==> a != data[0].attr && a !in AttrsOf(data[1..]);
      r
  }

  /** `unapply_to!(obj)`: the mirror of `ApplyTo`. Each entry checks that the
      object holds the new value and then restores the previous one. */
  function UnapplyTo(data: Data, obj: Attributes): (r: Outcome<Attributes>)
    ensures r.Done? <==> NewMatches(data, obj)
    ensures r.Done? ==> PreviousMatches(data, r.value)
    ensures r.Raised? ==> r.error == CannotApplyError
    ensures forall a :: a !in AttrsOf(data) ==> Get(r.State(), a) == Get(obj, a)
    decreases |data|
  {
    if data == [] then Done(obj)
    else if Get(obj, data[0].attr) != data[0].newValue then Raised(CannotApplyError, obj)
    else
      var r := UnapplyTo(data[1..], Set(obj, data[0].attr, data[0].previousValue));
      assert forall i :: 0 < i < |data| ==> data[i].attr != data[0].attr && data[i] == data[1..][i - 1];
      assert forall a :: a !in AttrsOf(data) ==> a != data[0].attr && a !in AttrsOf(data[1..]);
      r
  }

  /** Applying a change only reads and writes its own columns: from a state
      `x` that agrees with `s` on them it succeeds as well, and ends with the
      same values there and `x`'s values elsewhere. */
  lemma ApplyToFrame(data: Data, s: Attributes, x: Attributes)
    requires ApplyTo(data, s).Done?
    requires forall a :: a in AttrsOf(data) ==> Get(x, a) == Get(s, a)
    ensures ApplyTo(data, x).Done?
    ensures forall a :: Get(ApplyTo(data, x).value, a)
                       == if a in AttrsOf(data) then Get(ApplyTo(data, s).value, a) else Get(x, a)
  {
    assert PreviousMatches(data, x) by {
      forall i | 0 <= i < |data| ensures Get(x, data[i].attr) == data[i].previousValue {
        assert data[i].attr in AttrsOf(data);
      }
    }
    forall a | a in AttrsOf(data) ensures Get(ApplyTo(data, x).value, a) == Get(ApplyTo(data, s).value, a) {
      var i :| 0 <= i < |data| && data[i].attr == a;
    }
  }

  /** Round trip: applying a change to `s` yields `s'` exactly when unapplying
      it from `s'` yields `s`. */
  lemma ApplyUnapplyRoundTrip(data: Data, s: Attributes, s': Attributes)
    ensures ApplyTo(data, s) == Done(s') <==> UnapplyTo(data, s') == Done(s)
  {
    if ApplyTo(data, s) == Done(s') {
      var back := UnapplyTo(data, s').value;
      forall a ensures Get(back, a) == Get(s, a) {
        if a in AttrsOf(data) {
          var i :| 0 <= i < |data| && data[i].attr == a;
        }
      }
      SameReadsSameAttributes(back, s);
    }
    if UnapplyTo(data, s') == Done(s) {
      var forth := ApplyTo(data, s).value;
      forall a ensures Get(forth, a) == Get(s', a) {
        if a in AttrsOf(data) {
          var i :| 0 <= i < |data| && data[i].attr == a;
        }
      }
      SameReadsSameAttributes(forth, s');
    }
  }

  /** The object as `apply_to!` leaves it when it raises: the entries before
      the first mismatch `k` are written, entry `k` and the ones after it are
      not. */
  lemma {:induction false} ApplyStopsAtFirstMismatch(data: Data, s: Attributes)
    requires ApplyTo(data, s).Raised?
    ensures exists k :: 0 <= k < |data| && StoppedAt(data, s, k, ApplyTo(data, s).after)
    decreases |data|
  {
    if Get(s, data[0].attr) != data[0].previousValue {
      assert StoppedAt(data, s, 0, ApplyTo(data, s).after);
    } else {
      var s1 := Set(s, data[0].attr, data[0].newValue);
      var rest: Data := data[1..];
      ApplyStopsAtFirstMismatch(rest, s1);
      var k :| 0 <= k < |rest| && StoppedAt(rest, s1, k, ApplyTo(rest, s1).after);
      StoppedOneLater(data, s, k, ApplyTo(data, s).after);
    }
  }

  /** The step of `ApplyStopsAtFirstMismatch`: a first entry that matched and
      was written shifts the stopping point of the rest by one. */
  lemma StoppedOneLater(data: Data, s: Attributes, k: nat, after: Attributes)
    requires k + 1 < |data|
    requires Get(s, data[0].attr) == data[0].previousValue
    requires StoppedAt(data[1..], Set(s, data[0].attr, data[0].newValue), k, after)
    ensures StoppedAt(data, s, k + 1, after)
  {
    var s1 := Set(s, data[0].attr, data[0].newValue);
    var done, done' := data[..k + 1], data[1..][..k];
    assert forall i :: 0 < i < |done| ==> done[i] == done'[i - 1] && done[i].attr != data[0].attr;
    assert data[0].attr !in AttrsOf(done');
    assert PreviousMatches(done, s);
    assert NewMatches(done, after);
    forall a | a !in AttrsOf(done) ensures Get(after, a) == Get(s, a) {
      assert a != done[0].attr && a !in AttrsOf(done');
    }
  }

  /** The data with every entry's previous and new value swapped. */
  function Flip(data: Data): (r: Data)
    ensures |r| == |data|
    ensures forall i :: 0 <= i < |data| ==> r[i] == Item(data[i].attr, data[i].newValue, data[i].previousValue)
  {
    seq(|data|, i requires 0 <= i < |data| => Item(data[i].attr, data[i].newValue, data[i].previousValue))
  }

  /** `unapply_to!` is `apply_to!` of the flipped data, step for step, so
      what holds of the one on failure holds of the other. */
  lemma {:induction false} UnapplyIsFlippedApply(data: Data, s: Attributes)
    ensures UnapplyTo(data, s) == ApplyTo(Flip(data), s)
    decreases |data|
  {
    if data != [] {
      var rest: Data := data[1..];
      assert Flip(data)[1..] == Flip(rest);
      UnapplyIsFlippedApply(rest, Set(s, data[0].attr, data[0].previousValue));
    }
  }

  /** The object as `unapply_to!` leaves it when it raises: the entries before
      the first mismatch `k` are restored to their previous values, entry `k`
      and the ones after it are not touched. */
  lemma UnapplyStopsAtFirstMismatch(data: Data, s: Attributes)
    requires UnapplyTo(data, s).Raised?
    ensures exists k :: 0 <= k < |data| && StoppedAt(Flip(data), s, k, UnapplyTo(data, s).after)
  {
    UnapplyIsFlippedApply(data, s);
    ApplyStopsAtFirstMismatch(Flip(data), s);
  }

  /** Entries `0 .. k-1` matched and were written, entry `k` mismatched, and
      every column not written by the first `k` entries is untouched. */
  ghost predicate StoppedAt(data: seq<Item>, s: Attributes, k: nat, after: Attributes)
    requires k < |data|
  {
    && PreviousMatches(data[..k], s)
    && Get(s, data[k].attr) != data[k].previousValue
    && NewMatches(data[..k], after)
    && forall a :: a !in AttrsOf(data[..k]) ==> Get(after, a) == Get(s, a)
  }
}

=== FILE: reconcile.dfy ===
/** The save callbacks of the `Retroactive` concern: a save made from an
    instance frozen in the past must not overwrite, in the row, a column that
    a later change in `(frozen_at, now]` has set since. Such columns are
    reverted before the row is written (`before_save`), the save is logged at
    the frozen time, and the requested values are put back in memory
    afterwards (`after_save`). */
module Reconcile {
  import opened Values
  import opened Changes
  import opened Scopes
  import opened Replay
  import opened TimeTravel
  import opened History

  /** `_attrs_overriden_by_logged_changes`: nothing for an instance that was
      never moved in time; an error for one frozen after `now`; otherwise
      every column written by a change in `(frozen_at, now]`. */
  function Overrides(inst: Instance, log: seq<LoggedChange>, now: int): (r: Result<set<Attr>>)
    ensures inst.frozenAt.None? ==> r == Ok({})
    ensures inst.frozenAt.Some? && inst.frozenAt.value > now ==> r == Err(CannotMakeFutureDatedUpdatesError)
    ensures inst.frozenAt.Some? && inst.frozenAt.value <= now ==>
              r.Ok? && forall a :: a in r.value <==>
                exists c :: c in log && inst.frozenAt.value < c.asOf <= now && a in AttrsOf(c.data)
  {
    match inst.frozenAt
    case None => Ok({})
    case Some(frozen) =>
      if frozen > now then Err(CannotMakeFutureDatedUpdatesError)
      else Ok(Touched(Between(log, frozen, now)))
  }

  /** `changes_to_save` (and, after the write, `saved_changes`): one entry
      `attr => [in database, in memory]` per column whose in-memory value
      differs from the stored one, in column order. */
  function ChangesToSave(columns: Columns, db: Attributes, mem: Attributes): (r: Data)
    ensures forall i :: 0 <= i < |r| ==>
              && r[i].attr in columns
              && r[i] == Item(r[i].attr, Get(db, r[i].attr), Get(mem, r[i].attr))
              && Get(db, r[i].attr) != Get(mem, r[i].attr)
    ensures forall a :: a in columns && Get(db, a) != Get(mem, a) ==> a in AttrsOf(r)
    decreases |columns|
  {
    if columns == [] then []
    else
      var a, rest := columns[0], ChangesToSave(columns[1..], db, mem);
      assert forall i :: 0 <= i < |rest| ==> rest[i].attr in columns[1..] && rest[i].attr != a;
      assert forall b :: b in columns ==> b == a || b in columns[1..];
      AttrsOfCons(Item(a, Get(db, a), Get(mem, a)), rest);
      if Get(db, a) != Get(mem, a) then [Item(a, Get(db, a), Get(mem, a))] + rest else rest
  }

  /** `changes_to_save.slice(*overridden).transform_values { post }`: the
      requested value of every pending change on an overridden column. */
  function PostSaveValues(changes: Data, overridden: set<Attr>): (r: map<Attr, Value>)
    ensures r.Keys == AttrsOf(changes) * overridden
    ensures forall i :: 0 <= i < |changes| && changes[i].attr in overridden ==> r[changes[i].attr] == changes[i].newValue
    decreases |changes|
  {
    if changes == [] then map[]
    else
      var first, rest := changes[0], PostSaveValues(changes[1..], overridden);
      assert forall i :: 0 < i < |changes| ==> changes[i] == changes[1..][i - 1] && changes[i].attr != first.attr;
      assert changes == [first] + changes[1..];
      AttrsOfCons(first, changes[1..]);
      if first.attr in overridden then rest[first.attr := first.newValue] else rest
  }

  /** `_undo_pending_change!` on each of `attrs`: the in-memory value goes
      back to `attribute_in_database`, so the row write leaves it alone. */
  function UndoPendingChanges(mem: Attributes, db: Attributes, attrs: set<Attr>): (r: Attributes)
    ensures forall a :: Get(r, a) == if a in attrs then Get(db, a) else Get(mem, a)
  {
    map a | a in mem.Keys + db.Keys && ((a in mem && a !in attrs) || (a in db && a in attrs))
      :: if a in attrs then db[a] else mem[a]
  }

  /** `self[attr_name] = value` for every pending entry. */
  function AssignAll(mem: Attributes, values: map<Attr, Value>): (r: Attributes)
    ensures forall a :: Get(r, a) == if a in values then values[a] else Get(mem, a)
  {
    map a | a in mem.Keys + values.Keys && ((a in mem && a !in values) || (a in values && values[a] != Nil))
      :: if a in values then values[a] else mem[a]
  }

  /** The row update: every saved change's new value is written. */
  function WriteRow(db: Attributes, saved: Data): (r: Attributes)
    ensures forall i :: 0 <= i < |saved| ==> Get(r, saved[i].attr) == saved[i].newValue
    ensures forall a :: a !in AttrsOf(saved) ==> Get(r, a) == Get(db, a)
    decreases |saved|
  {
    if saved == [] then db
    else
      assert forall i :: 0 < i < |saved| ==> saved[i] == saved[1..][i - 1] && saved[i].attr != saved[0].attr;
      assert forall a :: a !in AttrsOf(saved) ==> a != saved[0].attr && a !in AttrsOf(saved[1..]);
      WriteRow(Set(db, saved[0].attr, saved[0].newValue), saved[1..])
  }

  /** The instance and its log after a save. */
  datatype Saved = Saved(inst: Instance, log: seq<LoggedChange>)

  /** One `save` of an instance with the concern's two callbacks around it:
      strip the overridden pending changes, write the row, append one logged
      change anchored at the current time holding what was actually saved,
      and restore the requested values in memory. A future-dated save raises
      before anything is written. */
  function Save(inst: Instance, log: seq<LoggedChange>, now: int): (r: Result<Saved>)
    ensures r.Err? <==> inst.frozenAt.Some? && inst.frozenAt.value > now
    ensures r.Err? ==> r.error == CannotMakeFutureDatedUpdatesError
    ensures r.Ok? ==>
              var overridden, out := Overrides(inst, log, now).value, r.value;
              && |out.log| == |log| + 1
              && out.log == log + [out.log[|log|]]
              && out.log[|log|].asOf == CurrentTime(inst, now)
              && out.inst == inst.(db := out.inst.db)
              && forall a :: Get(out.inst.db, a)
                             == if a in inst.columns && a !in overridden then Get(inst.mem, a) else Get(inst.db, a)
    ensures r.Ok? ==>
              var overridden, data := Overrides(inst, log, now).value, r.value.log[|log|].data;
              && (forall i :: 0 <= i < |data| ==>
                    && data[i].attr in inst.columns && data[i].attr !in overridden
                    && data[i].previousValue == Get(inst.db, data[i].attr)
                    && data[i].newValue == Get(inst.mem, data[i].attr)
                    && data[i].previousValue != data[i].newValue)
              && forall a :: a in inst.columns && a !in overridden && Get(inst.db, a) != Get(inst.mem, a)
                             ==> a in AttrsOf(data)
  {
    match Overrides(inst, log, now)
    case Err(e) => Err(e)
    case Ok(overridden) =>
      var requested := ChangesToSave(inst.columns, inst.db, inst.mem);
      var post := PostSaveValues(requested, overridden);
      var stripped := UndoPendingChanges(inst.mem, inst.db, post.Keys);
      var saved := ChangesToSave(inst.columns, inst.db, stripped);
      var row := WriteRow(inst.db, saved);
      var restored := AssignAll(stripped, post);
      SaveFacts(inst, overridden, requested, post, stripped, saved, row, restored);
      Ok(Saved(inst.(mem := restored, db := row), log + [LoggedChange(CurrentTime(inst, now), saved)]))
  }

  /** What each step of `Save` does to the columns. */
  lemma SaveFacts(inst: Instance, overridden: set<Attr>, requested: Data, post: map<Attr, Value>,
                  stripped: Attributes, saved: Data, row: Attributes, restored: Attributes)
    requires requested == ChangesToSave(inst.columns, inst.db, inst.mem)
    requires post == PostSaveValues(requested, overridden)
    requires stripped == UndoPendingChanges(inst.mem, inst.db, post.Keys)
    requires saved == ChangesToSave(inst.columns, inst.db, stripped)
    requires row == WriteRow(inst.db, saved)
    requires restored == AssignAll(stripped, post)
    ensures restored == inst.mem
    ensures forall a :: Get(row, a) == if a in inst.columns && a !in overridden then Get(inst.mem, a) else Get(inst.db, a)
    ensures forall i :: 0 <= i < |saved| ==>
              && saved[i].attr in inst.columns && saved[i].attr !in overridden
              && saved[i].previousValue == Get(inst.db, saved[i].attr)
              && saved[i].newValue == Get(inst.mem, saved[i].attr)
    ensures forall a :: a in inst.columns && a !in overridden && Get(inst.db, a) != Get(inst.mem, a)
                        ==> a in AttrsOf(saved)
  {
    PostFacts(inst.columns, inst.db, inst.mem, overridden);
    forall a ensures Get(restored, a) == Get(inst.mem, a) {
    }
    SameReadsSameAttributes(restored, inst.mem);
    StrippedFacts(inst.columns, inst.db, inst.mem, overridden, post, stripped, saved);
    forall a ensures Get(row, a) == if a in inst.columns && a !in overridden then Get(inst.mem, a) else Get(inst.db, a) {
      if a in AttrsOf(saved) {
        var i :| 0 <= i < |saved| && saved[i].attr == a;
      }
    }
  }

  /** The values put back after the write are the requested values of the
      overridden columns that had a pending change. */
  lemma PostFacts(columns: Columns, db: Attributes, mem: Attributes, overridden: set<Attr>)
    ensures var post := PostSaveValues(ChangesToSave(columns, db, mem), overridden);
            && (forall a :: a in post <==> a in columns && a in overridden && Get(db, a) != Get(mem, a))
            && (forall a :: a in post ==> post[a] == Get(mem, a))
  {
    var requested := ChangesToSave(columns, db, mem);
    var post := PostSaveValues(requested, overridden);
    forall a | a in post ensures a in columns && a in overridden && Get(db, a) != Get(mem, a) && post[a] == Get(mem, a) {
      var i :| 0 <= i < |requested| && requested[i].attr == a;
    }
  }

  /** What is written once the overridden columns are reverted: exactly the
      pending changes on the other columns. */
  lemma StrippedFacts(columns: Columns, db: Attributes, mem: Attributes, overridden: set<Attr>,
                      post: map<Attr, Value>, stripped: Attributes, saved: Data)
    requires forall a :: a in post <==> a in columns && a in overridden && Get(db, a) != Get(mem, a)
    requires stripped == UndoPendingChanges(mem, db, post.Keys)
    requires saved == ChangesToSave(columns, db, stripped)
    ensures forall i :: 0 <= i < |saved| ==>
              && saved[i].attr in columns && saved[i].attr !in overridden
              && saved[i].previousValue == Get(db, saved[i].attr)
              && saved[i].newValue == Get(mem, saved[i].attr)
    ensures forall a :: a in columns && a !in overridden && Get(db, a) != Get(mem, a) ==> a in AttrsOf(saved)
  {
  }

  /** The log stays a faithful history of the row: if replaying the log up
      to `now` gives the stored row, then after a save replaying the longer
      log up to `now` gives the newly stored row. */
  lemma SaveKeepsRowHistory(inst: Instance, log: seq<LoggedChange>, now: int)
    requires StateAt(log, now) == Done(inst.db)
    requires Save(inst, log, now).Ok?
    ensures var out := Save(inst, log, now).value;
            StateAt(out.log, now) == Done(out.inst.db)
  {
    var t, overridden, out := CurrentTime(inst, now), Overrides(inst, log, now).value, Save(inst, log, now).value;
    var change := out.log[|log|];
    var before, later := Chronological(UpTo(log, t)), Chronological(Between(log, t, now));
    assert out.log == log + [change];
    HistoryWithChange(log, change, now);
    assert overridden == Touched(later) by {
      TouchedSameChanges(later, Between(log, t, now));
    }
    ReplaySavedChange(before, change, later, inst.db);
    SavedRow(inst, overridden, change.data, later, StateAt(out.log, now).value, out.inst.db);
  }

  /** At the instance's own time the log now holds the saved edits on top of
      what it held before there, and the overridden columns keep their old
      history: a retroactive edit of a column that a later change has set
      since is shown by the instance but recorded nowhere. */
  lemma SaveRecordsEditsAtOwnTime(inst: Instance, log: seq<LoggedChange>, now: int)
    requires StateAt(log, now) == Done(inst.db)
    requires Save(inst, log, now).Ok?
    ensures var t, overridden, out := CurrentTime(inst, now), Overrides(inst, log, now).value, Save(inst, log, now).value;
            && StateAt(log, t).Done? && StateAt(out.log, t).Done?
            && forall a :: Get(StateAt(out.log, t).value, a)
                           == if a in inst.columns && a !in overridden then Get(inst.mem, a) else Get(StateAt(log, t).value, a)
  {
    var t, overridden, out := CurrentTime(inst, now), Overrides(inst, log, now).value, Save(inst, log, now).value;
    var change := out.log[|log|];
    var before, later := Chronological(UpTo(log, t)), Chronological(Between(log, t, now));
    assert out.log == log + [change];
    HistoryWithChange(log, change, now);
    assert overridden == Touched(later) by {
      TouchedSameChanges(later, Between(log, t, now));
    }
    ReplaySavedChange(before, change, later, inst.db);
    ApplyAllConcat(before, later, map[]);
    SavedAtOwnTime(inst, overridden, change.data, StateAt(log, t).value, later, StateAt(out.log, t).value);
  }

  /** The history of a log with one change `c` appended, up to `now` and up
      to the change's own time, against the history of the log before. */
  lemma HistoryWithChange(log: seq<LoggedChange>, c: LoggedChange, now: int)
    requires c.asOf <= now
    ensures var before, later := Chronological(UpTo(log, c.asOf)), Chronological(Between(log, c.asOf, now));
            && StateAt(log, now) == ApplyAll(before + later, map[])
            && StateAt(log + [c], now) == ApplyAll(before + [c] + later, map[])
            && StateAt(log + [c], c.asOf) == ApplyAll(before + [c], map[])
  {
    var before := Chronological(UpTo(log, c.asOf));
    HistorySplit(log, c.asOf, now);
    AppendedChange(log, c, now);
    AppendedChange(log, c, c.asOf);
    assert Between(log, c.asOf, c.asOf) == [];
    assert before + [c] + [] == before + [c];
  }

  /** The row after the save, column by column: the replayed history ends
      in exactly the row that was written. */
  lemma SavedRow(inst: Instance, overridden: set<Attr>, data: Data, later: seq<LoggedChange>,
                 y: Attributes, row: Attributes)
    requires overridden == Touched(later)
    requires forall i :: 0 <= i < |data| ==> Get(y, data[i].attr) == data[i].newValue
    requires forall a :: a !in AttrsOf(data) ==> Get(y, a) == Get(inst.db, a)
    requires forall i :: 0 <= i < |data| ==>
               && data[i].attr in inst.columns && data[i].attr !in overridden
               && data[i].newValue == Get(inst.mem, data[i].attr)
    requires forall a :: a in inst.columns && a !in overridden && Get(inst.db, a) != Get(inst.mem, a) ==> a in AttrsOf(data)
    requires forall a :: Get(row, a) == if a in inst.columns && a !in overridden then Get(inst.mem, a) else Get(inst.db, a)
    ensures y == row
  {
    forall a ensures Get(y, a) == Get(row, a) {
      if a in AttrsOf(data) {
        var i :| 0 <= i < |data| && data[i].attr == a;
      }
    }
    SameReadsSameAttributes(y, row);
  }

  /** The state at the instance's own time after the save, column by column:
      the saved entries' new values, and elsewhere what the log held there. */
  lemma SavedAtOwnTime(inst: Instance, overridden: set<Attr>, data: Data, past: Attributes,
                       later: seq<LoggedChange>, x: Attributes)
    requires overridden == Touched(later)
    requires ApplyAll(later, past) == Done(inst.db)
    requires forall i :: 0 <= i < |data| ==>
               && data[i].attr in inst.columns && data[i].attr !in overridden
               && data[i].newValue == Get(inst.mem, data[i].attr)
    requires forall a :: a in inst.columns && a !in overridden && Get(inst.db, a) != Get(inst.mem, a) ==> a in AttrsOf(data)
    requires forall i :: 0 <= i < |data| ==> Get(x, data[i].attr) == data[i].newValue
    requires forall a :: a !in AttrsOf(data) ==> Get(x, a) == Get(past, a)
    ensures forall a :: Get(x, a) == if a in inst.columns && a !in overridden then Get(inst.mem, a) else Get(past, a)
  {
    forall a ensures Get(x, a) == if a in inst.columns && a !in overridden then Get(inst.mem, a) else Get(past, a) {
      if a in AttrsOf(data) {
        var i :| 0 <= i < |data| && data[i].attr == a;
      }
    }
  }

  /** Replaying a history with one more change `c` slotted in before the
      changes `later`, where `c` starts from the stored row's values and
      writes no column `later` writes: `c` applies, and both at its own
      place and at the end its columns hold its new values while every
      other column is as before. */
  lemma ReplaySavedChange(before: seq<LoggedChange>, c: LoggedChange, later: seq<LoggedChange>, row: Attributes)
    requires ApplyAll(before + later, map[]) == Done(row)
    requires forall a :: a in AttrsOf(c.data) ==> a !in Touched(later)
    requires PreviousMatches(c.data, row)
    ensures ApplyAll(before, map[]).Done?
    ensures ApplyAll(before + [c], map[]).Done?
    ensures forall i :: 0 <= i < |c.data| ==> Get(ApplyAll(before + [c], map[]).value, c.data[i].attr) == c.data[i].newValue
    ensures forall a :: a !in AttrsOf(c.data) ==> Get(ApplyAll(before + [c], map[]).value, a) == Get(ApplyAll(before, map[]).value, a)
    ensures ApplyAll(before + [c] + later, map[]).Done?
    ensures forall i :: 0 <= i < |c.data| ==> Get(ApplyAll(before + [c] + later, map[]).value, c.data[i].attr) == c.data[i].newValue
    ensures forall a :: a !in AttrsOf(c.data) ==> Get(ApplyAll(before + [c] + later, map[]).value, a) == Get(row, a)
  {
    ApplyAllConcat(before, later, map[]);
    var past := ApplyAll(before, map[]).value;
    assert PreviousMatches(c.data, past) by {
      forall i | 0 <= i < |c.data| ensures Get(past, c.data[i].attr) == c.data[i].previousValue {
        assert c.data[i].attr in AttrsOf(c.data);
      }
    }
    ApplyAllConcat(before, [c], map[]);
    assert ApplyAll([c], past) == ApplyTo(c.data, past);
    var edited := ApplyAll(before + [c], map[]).value;
    ApplyAllConcat(before + [c], later, map[]);
    ApplyAllFrame(later, past, edited);
    forall a ensures Get(ApplyAll(later, edited).value, a) == if a in AttrsOf(c.data) then Get(edited, a) else Get(row, a) {
    }
  }
}

=== FILE: replay.dfy ===
/** Replaying a list of logged changes, one after the other, as
    `changes.each(&:apply!)` and `changes.each(&:unapply!)` do. The first
    change that raises stops the walk; the changes before it stay applied. */
module Replay {
  import opened Values
  import opened Changes
  import opened Scopes

  /** Every column that some change of `rs` writes. */
  function Touched(rs: seq<LoggedChange>): (r: set<Attr>)
    ensures forall c :: c in rs ==> AttrsOf(c.data) <= r
    ensures forall a :: a in r ==> exists i, j :: 0 <= i < |rs| && 0 <= j < |rs[i].data| && rs[i].data[j].attr == a
  {
    set c, a | c in rs && a in AttrsOf(c.data) :: a
  }

  /** Two lists holding the same changes touch the same columns. */
  lemma TouchedSameChanges(xs: seq<LoggedChange>, ys: seq<LoggedChange>)
    requires multiset(xs) == multiset(ys)
    ensures Touched(xs) == Touched(ys)
  {
    assert forall c :: c in xs <==> c in ys by {
      forall c ensures c in xs <==> c in ys {
        assert c in xs <==> c in multiset(xs);
        assert c in ys <==> c in multiset(ys);
      }
    }
  }

  /** Applies `rs` in order, stopping at the first change that raises. */
  function ApplyAll(rs: seq<LoggedChange>, obj: Attributes): (r: Outcome<Attributes>)
    ensures r.Raised? ==> r.error == CannotApplyError
    ensures forall a :: a !in Touched(rs) ==> Get(r.State(), a) == Get(obj, a)
    decreases |rs|
  {
    if rs == [] then Done(obj)
    else
      assert forall a :: a in Touched(rs[1..]) ==> a in Touched(rs);
      match ApplyTo(rs[0].data, obj)
      case Done(next) => ApplyAll(rs[1..], next)
      case Raised(e, partial) => Raised(e, partial)
  }

  /** Unapplies `rs` in the order given, stopping at the first change that
      raises. */
  function UnapplyAll(rs: seq<LoggedChange>, obj: Attributes): (r: Outcome<Attributes>)
    ensures r.Raised? ==> r.error == CannotApplyError
    ensures forall a :: a !in Touched(rs) ==> Get(r.State(), a) == Get(obj, a)
    decreases |rs|
  {
    if rs == [] then Done(obj)
    else
      assert forall a :: a in Touched(rs[1..]) ==> a in Touched(rs);
      match UnapplyTo(rs[0].data, obj)
      case Done(next) => UnapplyAll(rs[1..], next)
      case Raised(e, partial) => Raised(e, partial)
  }

  /** Replaying `a + b` replays `a` and, if that did not raise, then `b`. */
  lemma {:induction false} ApplyAllConcat(a: seq<LoggedChange>, b: seq<LoggedChange>, obj: Attributes)
    ensures ApplyAll(a + b, obj)
            == match ApplyAll(a, obj)
               case Done(mid) => ApplyAll(b, mid)
               case Raised(e, partial) => Raised(e, partial)
    decreases |a|
  {
    if a == [] {
      assert a + b == b;
    } else {
      assert (a + b)[0] == a[0] && (a + b)[1..] == a[1..] + b;
      match ApplyTo(a[0].data, obj)
      case Done(next) => ApplyAllConcat(a[1..], b, next);
      case Raised(_, _) =>
    }
  }

  lemma {:induction false} UnapplyAllConcat(a: seq<LoggedChange>, b: seq<LoggedChange>, obj: Attributes)
    ensures UnapplyAll(a + b, obj)
            == match UnapplyAll(a, obj)
               case Done(mid) => UnapplyAll(b, mid)
               case Raised(e, partial) => Raised(e, partial)
    decreases |a|
  {
    if a == [] {
      assert a + b == b;
    } else {
      assert (a + b)[0] == a[0] && (a + b)[1..] == a[1..] + b;
      match UnapplyTo(a[0].data, obj)
      case Done(next) => UnapplyAllConcat(a[1..], b, next);
      case Raised(_, _) =>
    }
  }

  /** Round trip over a list: applying `rs` to `s` yields `s'` exactly when
      unapplying the reversed list from `s'` yields `s`. */
  lemma {:induction false} ReplayRoundTrip(rs: seq<LoggedChange>, s: Attributes, s': Attributes)
    ensures ApplyAll(rs, s) == Done(s') <==> UnapplyAll(Reverse(rs), s') == Done(s)
    decreases |rs|
  {
    if rs != [] {
      var c, rest := rs[0], rs[1..];
      assert Reverse(rs) == Reverse(rest) + [c];
      UnapplyAllConcat(Reverse(rest), [c], s');
      if ApplyAll(rs, s) == Done(s') {
        var mid := ApplyTo(c.data, s).value;
        ReplayRoundTrip(rest, mid, s');
        ApplyUnapplyRoundTrip(c.data, s, mid);
      }
      if UnapplyAll(Reverse(rs), s') == Done(s) {
        var mid := UnapplyAll(Reverse(rest), s').value;
        ApplyUnapplyRoundTrip(c.data, s, mid);
        ReplayRoundTrip(rest, mid, s');
      }
    }
  }

  /** Replaying `rs` only looks at and writes the columns it touches: from a
      state `x` that agrees with `s` on those columns it succeeds as well,
      and ends with the same touched columns and `x`'s other columns. */
  lemma {:induction false} ApplyAllFrame(rs: seq<LoggedChange>, s: Attributes, x: Attributes)
    requires ApplyAll(rs, s).Done?
    requires forall a :: a in Touched(rs) ==> Get(x, a) == Get(s, a)
    ensures ApplyAll(rs, x).Done?
    ensures forall a :: Get(ApplyAll(rs, x).value, a)
                       == if a in Touched(rs) then Get(ApplyAll(rs, s).value, a) else Get(x, a)
    decreases |rs|
  {
    if rs != [] {
      var c, rest := rs[0], rs[1..];
      assert forall a :: a in AttrsOf(c.data) ==> a in Touched(rs);
      assert forall a :: a in Touched(rest) ==> a in Touched(rs);
      assert forall a :: a in Touched(rs) ==> a in AttrsOf(c.data) || a in Touched(rest);
      ApplyToFrame(c.data, s, x);
      var s1, x1 := ApplyTo(c.data, s).value, ApplyTo(c.data, x).value;
      ApplyAllFrame(rest, s1, x1);
    }
  }
}

=== FILE: scenarios.dfy ===
/** The update examples of the gem's own suite, on concrete values. Times
    are hours relative to the present (`now` is 0): the record is created
    five days ago with `foo = "bar"`, `foo` becomes `"bar2"` four days ago
    and `"bar3"` two days ago, and `bar` becomes 8 one day ago. */
module Scenarios {
  import opened Values
  import opened Changes
  import opened Scopes
  import opened Replay
  import opened TimeTravel
  import opened Reconcile

  /** The table of the examples: `id`, the string column `foo` and the
      integer column `bar`. */
  const TableColumns: Columns := ["id", "foo", "bar"]

  const Created := LoggedChange(-120, [Item("id", Nil, Int(1)), Item("foo", Nil, Str("bar"))])
  const FooToBar2 := LoggedChange(-96, [Item("foo", Str("bar"), Str("bar2"))])
  const FooToBar3 := LoggedChange(-48, [Item("foo", Str("bar2"), Str("bar3"))])
  const BarTo8 := LoggedChange(-24, [Item("bar", Nil, Int(8))])

  const Log := [Created, FooToBar2, FooToBar3, BarTo8]

  /** The stored row today. */
  const Row: Attributes := map["id" := Int(1), "foo" := Str("bar3"), "bar" := Int(8)]

  /** The record as it was 29 hours ago, before `bar` was set. */
  const RolledBack: Attributes := map["id" := Int(1), "foo" := Str("bar3")]

  /** Rolling the present instance back to 29 hours ago undoes only the
      change to `bar`. */
  lemma RollBackOneChange()
    ensures AsOfBang(Instance(TableColumns, Row, Row, None), Log, -29, 0)
            == Done(Instance(TableColumns, RolledBack, Row, Some(-29)))
  {
    RecentWindow();
    UndoBarTo8();
  }

  /** Only the change to `bar` lies between 29 hours ago and now. */
  lemma RecentWindow()
    ensures Between(Log, -29, 0) == [BarTo8]
    ensures ReverseChronological(Between(Log, -29, 0)) == [BarTo8]
  {
    assert Log[..3] == [Created, FooToBar2, FooToBar3];
    SelectNothing(Log[..3], Span(Some(-29), 0));
    assert Chronological([BarTo8]) == [BarTo8];
  }

  /** Undoing the change to `bar` clears that column. */
  lemma UndoBarTo8()
    ensures UnapplyAll([BarTo8], Row) == Done(RolledBack)
  {
    assert BarTo8.data[1..] == [];
    assert Set(Row, "bar", Nil) == RolledBack;
    assert UnapplyTo(BarTo8.data, Row) == Done(RolledBack);
  }

  /** The rolled-back instance after the caller set `foo` to `"hello"` and
      `bar` to 3. */
  const Edited := Instance(TableColumns, map["id" := Int(1), "foo" := Str("hello"), "bar" := Int(3)], Row, Some(-29))

  /** What the retroactive save writes: `foo` from `"bar3"` to `"hello"`. */
  const SavedEdit: Data := [Item("foo", Str("bar3"), Str("hello"))]

  /** Updating `foo` and `bar` on the rolled-back instance: `foo` is written
      to the row, `bar` is not, because the later change already set it; the
      instance still shows both requested values, and the save is logged at
      the frozen time with the `foo` entry only. */
  lemma RetroactiveUpdate()
    ensures var r := Save(Edited, Log, 0);
            && r.Ok?
            && Get(r.value.inst.db, "foo") == Str("hello")
            && Get(r.value.inst.db, "bar") == Int(8)
            && r.value.inst.mem == Edited.mem
            && r.value.log == Log + [LoggedChange(-29, SavedEdit)]
  {
    UpdatedRow(Edited, Log);
    UpdateLogged(Edited, Log, Save(Edited, Log, 0).value);
  }

  /** The row and the instance after the save of `Edited`. */
  lemma UpdatedRow(edited: Instance, log: seq<LoggedChange>)
    requires edited == Edited && log == Log
    ensures var r := Save(edited, log, 0);
            && r.Ok?
            && Get(r.value.inst.db, "foo") == Str("hello")
            && Get(r.value.inst.db, "bar") == Int(8)
            && r.value.inst.mem == edited.mem
  {
    assert "foo" in edited.columns && "foo" !in Overrides(edited, log, 0).value && Get(edited.mem, "foo") == Str("hello") by {
      EditOverrides();
    }
    assert "bar" in Overrides(edited, log, 0).value && Get(edited.db, "bar") == Int(8) by {
      EditOverrides();
    }
  }

  /** The log after the save of `Edited`. */
  lemma UpdateLogged(edited: Instance, log: seq<LoggedChange>, out: Saved)
    requires edited == Edited && log == Log
    requires Save(edited, log, 0) == Ok(out)
    ensures out.log == log + [LoggedChange(-29, SavedEdit)]
  {
    SavedDataOfEdit(edited, log, out);
    assert out.log == log + [LoggedChange(-29, out.log[4].data)];
  }

  /** The data logged by the save of `Edited` is the `foo` edit alone. */
  lemma SavedDataOfEdit(edited: Instance, log: seq<LoggedChange>, out: Saved)
    requires edited == Edited && log == Log
    requires Save(edited, log, 0) == Ok(out)
    ensures |out.log| == 5 && out.log[4].data == SavedEdit
  {
    EditOverrides();
    EditColumns(edited);
    EditSavesFooOnly(edited, log, out);
    EditSavesFoo(edited, log, out);
    OnlyEntry(out.log[4].data, SavedEdit[0]);
  }

  /** Every saved entry is the `foo` edit. */
  lemma EditSavesFooOnly(edited: Instance, log: seq<LoggedChange>, out: Saved)
    requires Save(edited, log, 0) == Ok(out)
    requires |log| == 4
    requires Overrides(edited, log, 0) == Ok({"bar"})
    requires Get(edited.db, "foo") == Str("bar3") && Get(edited.mem, "foo") == Str("hello")
    requires forall a :: a in edited.columns && a != "bar" ==> a == "id" || a == "foo"
    requires Get(edited.db, "id") == Get(edited.mem, "id")
    ensures |out.log| == 5
    ensures forall i :: 0 <= i < |out.log[4].data| ==> out.log[4].data[i] == SavedEdit[0]
  {
    var data := out.log[4].data;
    forall i | 0 <= i < |data| ensures data[i] == SavedEdit[0] {
      ItemIsFooEdit(data[i], edited);
    }
  }

  /** A saved entry on a column other than `bar` that changes its value can
      only be the `foo` edit. */
  lemma ItemIsFooEdit(item: Item, edited: Instance)
    requires Get(edited.db, "foo") == Str("bar3") && Get(edited.mem, "foo") == Str("hello")
    requires forall a :: a in edited.columns && a != "bar" ==> a == "id" || a == "foo"
    requires Get(edited.db, "id") == Get(edited.mem, "id")
    requires item.attr in edited.columns && item.attr !in {"bar"}
    requires item.previousValue == Get(edited.db, item.attr) && item.newValue == Get(edited.mem, item.attr)
    requires item.previousValue != item.newValue
    ensures item == SavedEdit[0]
  {
  }

  /** The `foo` edit is saved. */
  lemma EditSavesFoo(edited: Instance, log: seq<LoggedChange>, out: Saved)
    requires edited == Edited && log == Log
    requires Save(edited, log, 0) == Ok(out)
    ensures |out.log| == 5 && "foo" in AttrsOf(out.log[4].data)
  {
    EditOverrides();
    EditColumns(edited);
  }

  /** The edited instance's columns: `foo` is the one column other than
      `bar` whose requested value differs from the row. */
  lemma EditColumns(edited: Instance)
    requires edited == Edited
    ensures "foo" in edited.columns && Get(edited.db, "foo") != Get(edited.mem, "foo")
    ensures Get(edited.db, "foo") == Str("bar3") && Get(edited.mem, "foo") == Str("hello")
    ensures forall a :: a in edited.columns && a != "bar" ==> a == "id" || a == "foo"
    ensures Get(edited.db, "id") == Get(edited.mem, "id")
    ensures "foo" != "bar"
  {
    LiteralsDiffer();
  }

  /** Only `bar` was changed after 29 hours ago. */
  lemma EditOverrides()
    ensures Overrides(Edited, Log, 0) == Ok({"bar"})
  {
    RecentWindow();
    TouchedByBarTo8();
    assert Edited.frozenAt == Some(-29);
  }

  /** The change of one day ago writes `bar` alone. */
  lemma TouchedByBarTo8()
    ensures Touched([BarTo8]) == {"bar"}
  {
    assert AttrsOf([]) == {};
    AttrsOfCons(Item("bar", Nil, Int(8)), []);
    assert [Item("bar", Nil, Int(8))] + [] == BarTo8.data;
  }

  /** The column names and string values of the examples are distinct. */
  lemma LiteralsDiffer()
    ensures "id" != "foo" && "id" != "bar" && "foo" != "bar"
    ensures Str("bar3") != Str("hello")
  {
    assert "id"[0] != "foo"[0] && "id"[0] != "bar"[0] && "foo"[0] != "bar"[0];
    assert "bar3"[0] != "hello"[0];
  }

  /** Data whose every entry is `item`, and which has one, is just `item`. */
  lemma OnlyEntry(data: Data, item: Item)
    requires forall i :: 0 <= i < |data| ==> data[i] == item
    requires item.attr in AttrsOf(data)
    ensures data == [item]
  {
    FirstTwoDiffer(data);
  }

  /** The keys of a change's data are distinct. */
  lemma FirstTwoDiffer(data: Data)
    ensures |data| > 1 ==> data[0].attr != data[1].attr
  {
  }

  /** The present instance moved five days ahead, after the caller set
      `foo` to `"hello"` and `bar` to 3. */
  const Ahead := Instance(TableColumns, map["id" := Int(1), "foo" := Str("hello"), "bar" := Int(3)], Row, Some(120))

  /** An instance moved into the future cannot be saved. */
  lemma FutureDatedUpdate()
    ensures Save(Ahead, Log, 0) == Err(CannotMakeFutureDatedUpdatesError)
  {
  }
}

=== FILE: scopes.dfy ===
/** The query scopes of `Retroactivity::LoggedChange`: the half-open time
    window `between` and the two orderings `chronological` and
    `reverse_chronological`.

    The source orders by `as_of` alone and names no tie-breaker. This model
    fixes one: changes with the same `as_of` keep their log (insertion) order
    in `chronological`, and `reverse_chronological` is its exact reverse. */
module Scopes {
  import opened Values
  import opened Changes

  /** A time span `(after, until]`; without a lower bound it reaches back
      before every change. */
  datatype Span = Span(after: Option<int>, until: int)

  predicate InSpan(sp: Span, t: int)
  {
    (sp.after.None? || sp.after.value < t) && t <= sp.until
  }

  /** The changes of `log` that fall in `sp`, in log order. */
  function Select(log: seq<LoggedChange>, sp: Span): seq<LoggedChange>
  {
    if log == [] then []
    else
      var init, last := log[..|log| - 1], log[|log| - 1];
      if InSpan(sp, last.asOf) then Select(init, sp) + [last] else Select(init, sp)
  }

  /** `Select` keeps every change of `log` in the span, as often as it occurs
      there, and nothing else. */
  lemma {:induction false} SelectCounts(log: seq<LoggedChange>, sp: Span)
    ensures forall c :: multiset(Select(log, sp))[c] == if InSpan(sp, c.asOf) then multiset(log)[c] else 0
    ensures forall c :: c in Select(log, sp) <==> c in log && InSpan(sp, c.asOf)
  {
    if log != [] {
      var init, last := log[..|log| - 1], log[|log| - 1];
      assert log == init + [last];
      SelectCounts(init, sp);
    }
  }

  /** A selection from an ordered log is ordered. */
  lemma {:induction false} SelectAscending(log: seq<LoggedChange>, sp: Span)
    requires Ascending(log)
    ensures Ascending(Select(log, sp))
  {
    if log != [] {
      var init, last := log[..|log| - 1], log[|log| - 1];
      assert log == init + [last];
      assert Ascending(init);
      SelectAscending(init, sp);
      SelectCounts(init, sp);
      var r := Select(init, sp);
      assert forall x :: x in r ==> x.asOf <= last.asOf;
      AppendAscending(r, last);
    }
  }

  lemma AppendAscending(rs: seq<LoggedChange>, c: LoggedChange)
    requires Ascending(rs)
    requires forall x :: x in rs ==> x.asOf <= c.asOf
    ensures Ascending(rs + [c])
  {
    assert forall i :: 0 <= i < |rs| ==> rs[i] in rs;
  }

  /** `between(start, finish)`: the changes with `start < as_of <= finish`. */
  function Between(log: seq<LoggedChange>, start: int, finish: int): (r: seq<LoggedChange>)
    ensures forall c :: multiset(r)[c] == if start < c.asOf <= finish then multiset(log)[c] else 0
    ensures forall c :: c in r <==> c in log && start < c.asOf <= finish
    ensures start >= finish ==> r == []
  {
    SelectCounts(log, Span(Some(start), finish));
    Select(log, Span(Some(start), finish))
  }

  /** The changes with `as_of <= finish`. */
  function UpTo(log: seq<LoggedChange>, finish: int): (r: seq<LoggedChange>)
    ensures forall c :: c in r <==> c in log && c.asOf <= finish
  {
    SelectCounts(log, Span(None, finish));
    Select(log, Span(None, finish))
  }

  predicate Ascending(rs: seq<LoggedChange>)
  {
    forall i, j :: 0 <= i < j < |rs| ==> rs[i].asOf <= rs[j].asOf
  }

  predicate Descending(rs: seq<LoggedChange>)
  {
    forall i, j :: 0 <= i < j < |rs| ==> rs[i].asOf >= rs[j].asOf
  }

  /** Places `c` after every change of `sorted` that is not later than it. */
  function Insert(sorted: seq<LoggedChange>, c: LoggedChange): (r: seq<LoggedChange>)
    ensures multiset(r) == multiset(sorted) + multiset{c}
  {
    if sorted == [] || sorted[|sorted| - 1].asOf <= c.asOf then sorted + [c]
    else
      var init, last := sorted[..|sorted| - 1], sorted[|sorted| - 1];
      assert sorted == init + [last];
      Insert(init, c) + [last]
  }

  lemma {:induction false} InsertAscending(sorted: seq<LoggedChange>, c: LoggedChange)
    requires Ascending(sorted)
    ensures Ascending(Insert(sorted, c))
  {
    if sorted == [] || sorted[|sorted| - 1].asOf <= c.asOf {
      AppendAscending(sorted, c);
    } else {
      var init, last := sorted[..|sorted| - 1], sorted[|sorted| - 1];
      assert sorted == init + [last];
      assert Ascending(init);
      InsertAscending(init, c);
      var ins := Insert(init, c);
      assert forall x :: x in ins ==> x in multiset(init) + multiset{c};
      assert forall x :: x in init ==> x.asOf <= last.asOf;
      AppendAscending(ins, last);
    }
  }

  /** `chronological`: ascending `as_of`, ties in log order. */
  function Chronological(rs: seq<LoggedChange>): (r: seq<LoggedChange>)
    ensures Ascending(r)
    ensures multiset(r) == multiset(rs)
  {
    if rs == [] then []
    else
      assert rs == rs[..|rs| - 1] + [rs[|rs| - 1]];
      InsertAscending(Chronological(rs[..|rs| - 1]), rs[|rs| - 1]);
      Insert(Chronological(rs[..|rs| - 1]), rs[|rs| - 1])
  }

  function Reverse<T>(s: seq<T>): (r: seq<T>)
    ensures |r| == |s|
    ensures forall i :: 0 <= i < |s| ==> r[i] == s[|s| - 1 - i]
  {
    if s == [] then [] else Reverse(s[1..]) + [s[0]]
  }

  lemma {:induction false} ReverseConcat<T>(a: seq<T>, b: seq<T>)
    ensures Reverse(a + b) == Reverse(b) + Reverse(a)
  {
    assert |Reverse(a + b)| == |Reverse(b) + Reverse(a)|;
  }

  /** `reverse_chronological`: descending `as_of`, ties in reverse log order. */
  function ReverseChronological(rs: seq<LoggedChange>): (r: seq<LoggedChange>)
    ensures Descending(r)
    ensures multiset(r) == multiset(rs)
  {
    var up := Chronological(rs);
    var r := Reverse(up);
    assert forall c :: multiset(r)[c] == multiset(up)[c] by {
      ReverseSameElements(up);
    }
    r
  }

  lemma {:induction false} ReverseSameElements<T>(s: seq<T>)
    ensures multiset(Reverse(s)) == multiset(s)
  {
    if s != [] {
      ReverseSameElements(s[1..]);
      assert s == [s[0]] + s[1..];
    }
  }

  /** Filtering commutes with inserting into a sorted sequence. */
  lemma {:induction false} SelectInsert(sorted: seq<LoggedChange>, c: LoggedChange, sp: Span)
    requires Ascending(sorted)
    ensures Ascending(Select(sorted, sp))
    ensures Select(Insert(sorted, c), sp)
            == if InSpan(sp, c.asOf) then Insert(Select(sorted, sp), c) else Select(sorted, sp)
  {
    SelectAscending(sorted, sp);
    if sorted == [] || sorted[|sorted| - 1].asOf <= c.asOf {
      SelectInsertAtEnd(sorted, c, sp);
    } else {
      var init := sorted[..|sorted| - 1];
      assert sorted == init + [sorted[|sorted| - 1]];
      assert Ascending(init);
      SelectInsert(init, c, sp);
      SelectInsertBeforeLast(init, sorted[|sorted| - 1], c, sp);
    }
  }

  lemma SelectInsertAtEnd(sorted: seq<LoggedChange>, c: LoggedChange, sp: Span)
    requires Ascending(sorted) && Ascending(Select(sorted, sp))
    requires sorted == [] || sorted[|sorted| - 1].asOf <= c.asOf
    ensures Select(Insert(sorted, c), sp)
            == if InSpan(sp, c.asOf) then Insert(Select(sorted, sp), c) else Select(sorted, sp)
  {
    assert Insert(sorted, c) == sorted + [c];
    SelectAppend(sorted, c, sp);
    if InSpan(sp, c.asOf) {
      SelectedNotLater(sorted, c, sp);
      InsertAfterAll(Select(sorted, sp), c);
    }
  }

  /** Selecting from a log with one more change at the end. */
  lemma SelectAppend(xs: seq<LoggedChange>, c: LoggedChange, sp: Span)
    ensures Select(xs + [c], sp) == Select(xs, sp) + if InSpan(sp, c.asOf) then [c] else []
  {
    assert (xs + [c])[..|xs|] == xs;
  }

  /** Everything selected from an ordered log is no later than a change that
      is no earlier than its last entry. */
  lemma SelectedNotLater(sorted: seq<LoggedChange>, c: LoggedChange, sp: Span)
    requires Ascending(sorted)
    requires sorted == [] || sorted[|sorted| - 1].asOf <= c.asOf
    ensures forall x :: x in Select(sorted, sp) ==> x.asOf <= c.asOf
  {
    SelectCounts(sorted, sp);
    assert forall i :: 0 <= i < |sorted| ==> sorted[i].asOf <= c.asOf;
  }

  /** Inserting a change no earlier than any other appends it. */
  lemma InsertAfterAll(sorted: seq<LoggedChange>, c: LoggedChange)
    requires forall x :: x in sorted ==> x.asOf <= c.asOf
    ensures Insert(sorted, c) == sorted + [c]
  {
    if sorted != [] {
      assert sorted[|sorted| - 1] in sorted;
    }
  }

  lemma SelectInsertBeforeLast(init: seq<LoggedChange>, last: LoggedChange, c: LoggedChange, sp: Span)
    requires c.asOf < last.asOf
    requires Select(Insert(init, c), sp)
             == if InSpan(sp, c.asOf) then Insert(Select(init, sp), c) else Select(init, sp)
    ensures Select(Insert(init + [last], c), sp)
            == if InSpan(sp, c.asOf) then Insert(Select(init + [last], sp), c) else Select(init + [last], sp)
  {
    InsertBeforeLast(init, last, c);
    SelectAppend(Insert(init, c), last, sp);
    SelectAppend(init, last, sp);
    if InSpan(sp, c.asOf) && InSpan(sp, last.asOf) {
      InsertBeforeLast(Select(init, sp), last, c);
    }
  }

  /** Inserting a change earlier than the last one goes in before it. */
  lemma InsertBeforeLast(init: seq<LoggedChange>, last: LoggedChange, c: LoggedChange)
    requires c.asOf < last.asOf
    ensures Insert(init + [last], c) == Insert(init, c) + [last]
  {
    assert (init + [last])[..|init|] == init;
  }

  /** `between(...).chronological` may equally be read as the window of the
      already ordered log: filtering commutes with ordering. */
  lemma {:induction false} SelectChronological(rs: seq<LoggedChange>, sp: Span)
    ensures Select(Chronological(rs), sp) == Chronological(Select(rs, sp))
  {
    if rs != [] {
      var init, last := rs[..|rs| - 1], rs[|rs| - 1];
      assert rs == init + [last];
      SelectChronological(init, sp);
      SelectInsert(Chronological(init), last, sp);
    }
  }

  /** Nothing of `rs` lies in `sp`, so nothing is selected. */
  lemma SelectNothing(rs: seq<LoggedChange>, sp: Span)
    requires forall c :: c in rs ==> !InSpan(sp, c.asOf)
    ensures Select(rs, sp) == []
  {
    SelectCounts(rs, sp);
  }

  /** On an ordered log the span `(lo, c]` is the span `(lo, b]` followed by
      the span `(b, c]`. */
  lemma {:induction false} SelectSplit(xs: seq<LoggedChange>, lo: Option<int>, b: int, c: int)
    requires Ascending(xs)
    requires lo.Some? ==> lo.value <= b
    requires b <= c
    ensures Select(xs, Span(lo, c)) == Select(xs, Span(lo, b)) + Select(xs, Span(Some(b), c))
  {
    if xs != [] {
      var init, last := xs[..|xs| - 1], xs[|xs| - 1];
      assert xs == init + [last];
      SelectSplit(init, lo, b, c);
      if InSpan(Span(lo, b), last.asOf) {
        SelectNothing(init, Span(Some(b), c));
      }
    }
  }

  /** The changes in `(a, c]`, oldest first, are those in `(a, b]` followed by
      those in `(b, c]`. */
  lemma WindowSplit(log: seq<LoggedChange>, a: int, b: int, c: int)
    requires a <= b <= c
    ensures Chronological(Between(log, a, c))
            == Chronological(Between(log, a, b)) + Chronological(Between(log, b, c))
  {
    SelectChronological(log, Span(Some(a), c));
    SelectChronological(log, Span(Some(a), b));
    SelectChronological(log, Span(Some(b), c));
    SelectSplit(Chronological(log), Some(a), b, c);
  }

  /** The whole history up to `c`, oldest first, is the history up to `b`
      followed by the changes in `(b, c]`. */
  lemma HistorySplit(log: seq<LoggedChange>, b: int, c: int)
    requires b <= c
    ensures Chronological(UpTo(log, c)) == Chronological(UpTo(log, b)) + Chronological(Between(log, b, c))
  {
    SelectChronological(log, Span(None, c));
    SelectChronological(log, Span(None, b));
    SelectChronological(log, Span(Some(b), c));
    SelectSplit(Chronological(log), None, b, c);
  }

  /** A change appended to the log at time `t` is replayed right after the
      history up to `t` and before every later change. */
  lemma {:induction false} InsertBetween(before: seq<LoggedChange>, later: seq<LoggedChange>, c: LoggedChange)
    requires Ascending(before + later)
    requires forall x :: x in before ==> x.asOf <= c.asOf
    requires forall x :: x in later ==> c.asOf < x.asOf
    ensures Insert(before + later, c) == before + [c] + later
  {
    if later == [] {
      assert before + later == before;
      if before != [] {
        assert before[|before| - 1] in before;
      }
    } else {
      var init, last := later[..|later| - 1], later[|later| - 1];
      assert later == init + [last];
      assert before + later == (before + init) + [last];
      assert Ascending(before + init) by {
        assert forall i :: 0 <= i < |before + init| ==> (before + init)[i] == (before + later)[i];
      }
      InsertBetween(before, init, c);
      assert last in later;
    }
  }

  /** A change appended to the log is replayed, in the history up to any
      `t` at or after its own time, right after the changes not later than
      it and before the later ones. */
  lemma AppendedChange(log: seq<LoggedChange>, c: LoggedChange, t: int)
    requires c.asOf <= t
    ensures Chronological(UpTo(log + [c], t))
            == Chronological(UpTo(log, c.asOf)) + [c] + Chronological(Between(log, c.asOf, t))
  {
    var log' := log + [c];
    assert log'[..|log'| - 1] == log && log'[|log'| - 1] == c;
    var upTo := UpTo(log, t);
    assert UpTo(log', t) == upTo + [c];
    assert (upTo + [c])[..|upTo|] == upTo;
    var before, later := Chronological(UpTo(log, c.asOf)), Chronological(Between(log, c.asOf, t));
    HistorySplit(log, c.asOf, t);
    assert forall x :: x in before ==> x in multiset(UpTo(log, c.asOf));
    assert forall x :: x in later ==> x in multiset(Between(log, c.asOf, t));
    InsertBetween(before, later, c);
  }
}

=== FILE: time_travel.dfy ===
/** Instance time travel: `as_of!`, `as_of` and `_current_time` of the
    `Retroactive` concern. */
module TimeTravel {
  import opened Values
  import opened Changes
  import opened Scopes
  import opened Replay

  /** The table's column names, each once, in column order. */
  type Columns = s: seq<Attr> | forall i, j :: 0 <= i < j < |s| ==> s[i] != s[j] witness []

  /** An in-memory instance of a class that includes `Retroactive`: its
      attributes as currently set (`mem`), the row as stored in the database
      (`db`, what `attribute_in_database` reads) and `@frozen_at`. */
  datatype Instance = Instance(columns: Columns, mem: Attributes, db: Attributes, frozenAt: Option<int>)

  /** `_current_time`: the frozen time, or the wall clock `now` when the
      instance was never moved in time. */
  function CurrentTime(inst: Instance, now: int): (r: int)
    ensures inst.frozenAt.Some? ==> r == inst.frozenAt.value
    ensures inst.frozenAt.None? ==> r == now
  {
    match inst.frozenAt
    case Some(t) => t
    case None => now
  }

  /** The changes a travel between `from` and `to` passes over, in either
      direction. */
  function Crossed(log: seq<LoggedChange>, from: int, to: int): seq<LoggedChange>
  {
    if to <= from then Between(log, to, from) else Between(log, from, to)
  }

  /** The replay at the heart of `as_of!`: moving the attributes `mem`, which
      hold the state at time `from`, to time `to`. Going back (`to <= from`)
      unapplies the changes in `(to, from]` newest first; going forward
      applies the changes in `(from, to]` oldest first. */
  function Travel(log: seq<LoggedChange>, mem: Attributes, from: int, to: int): (r: Outcome<Attributes>)
    ensures r.Raised? ==> r.error == CannotApplyError
    ensures forall a :: a !in Touched(Crossed(log, from, to)) ==> Get(r.State(), a) == Get(mem, a)
    ensures Crossed(log, from, to) == [] ==> r == Done(mem)
  {
    if to <= from then
      var window := Between(log, to, from);
      TouchedSameChanges(ReverseChronological(window), window);
      UnapplyAll(ReverseChronological(window), mem)
    else
      var window := Between(log, from, to);
      TouchedSameChanges(Chronological(window), window);
      ApplyAll(Chronological(window), mem)
  }

  /** `as_of!(time)`: replays the log between the current time and `time`
      and then sets `@frozen_at = time`. When a change raises, the exception
      leaves the attributes as far as the replay got and `@frozen_at` as it
      was. */
  function AsOfBang(inst: Instance, log: seq<LoggedChange>, time: int, now: int): (r: Outcome<Instance>)
    ensures r.Done? ==> r.value == inst.(mem := r.value.mem, frozenAt := Some(time))
    ensures r.Raised? ==> r.error == CannotApplyError && r.after == inst.(mem := r.after.mem)
    ensures var crossed := Crossed(log, CurrentTime(inst, now), time);
            && (forall a :: a !in Touched(crossed) ==> Get(r.State().mem, a) == Get(inst.mem, a))
            && (crossed == [] ==> r == Done(inst.(frozenAt := Some(time))))
  {
    match Travel(log, inst.mem, CurrentTime(inst, now), time)
    case Done(mem) => Done(inst.(mem := mem, frozenAt := Some(time)))
    case Raised(e, partial) => Raised(e, inst.(mem := partial))
  }

  /** `as_of(time)`: the same travel on a clone. The receiver is a value here
      and is never changed; when a change raises, the clone is dropped and
      only the error is left. */
  function AsOf(inst: Instance, log: seq<LoggedChange>, time: int, now: int): (r: Result<Instance>)
    ensures r.Ok? ==> r.value == inst.(mem := r.value.mem, frozenAt := Some(time))
    ensures r.Err? ==> r.error == CannotApplyError
    ensures var crossed := Crossed(log, CurrentTime(inst, now), time);
            && (r.Ok? ==> forall a :: a !in Touched(crossed) ==> Get(r.value.mem, a) == Get(inst.mem, a))
            && (crossed == [] ==> r == Ok(inst.(frozenAt := Some(time))))
  {
    match AsOfBang(inst, log, time, now)
    case Done(copy) => Ok(copy)
    case Raised(e, _) => Err(e)
  }

  /** Two successive travels `a -> b -> c` end where the direct travel
      `a -> c` ends. */
  lemma TravelCompose(log: seq<LoggedChange>, s: Attributes, a: int, b: int, c: int)
    requires Travel(log, s, a, b).Done?
    requires Travel(log, Travel(log, s, a, b).value, b, c).Done?
    ensures Travel(log, s, a, c) == Travel(log, Travel(log, s, a, b).value, b, c)
  {
    var s1 := Travel(log, s, a, b).value;
    if b <= a && c <= b {
      BackBack(log, s, c, b, a);
    } else if b <= a && c <= a {
      BackForward(log, s, b, c, a);
    } else if b <= a {
      var wba := Chronological(Between(log, b, a));
      ReplayRoundTrip(wba, s1, s);
      WindowSplit(log, b, a, c);
      ApplyAllConcat(wba, Chronological(Between(log, a, c)), s1);
    } else if c <= a {
      var wab := Chronological(Between(log, a, b));
      ReplayRoundTrip(wab, s, s1);
      WindowSplit(log, c, a, b);
      ReverseConcat(Chronological(Between(log, c, a)), wab);
      UnapplyAllConcat(Reverse(wab), Reverse(Chronological(Between(log, c, a))), s1);
    } else if c <= b {
      ForwardBack(log, s, a, c, b);
    } else {
      WindowSplit(log, a, b, c);
      ApplyAllConcat(Chronological(Between(log, a, b)), Chronological(Between(log, b, c)), s);
    }
  }

  /** `a -> b -> c` with `c <= b <= a`: both legs go back. */
  lemma BackBack(log: seq<LoggedChange>, s: Attributes, c: int, b: int, a: int)
    requires c <= b <= a
    ensures Travel(log, s, a, c)
            == match Travel(log, s, a, b)
               case Done(s1) => Travel(log, s1, b, c)
               case Raised(e, p) => Raised(e, p)
  {
    var wcb, wba := Chronological(Between(log, c, b)), Chronological(Between(log, b, a));
    WindowSplit(log, c, b, a);
    ReverseConcat(wcb, wba);
    UnapplyAllConcat(Reverse(wba), Reverse(wcb), s);
  }

  /** `a -> b -> c` with `b < c <= a`: back past `c`, then forward to it. */
  lemma BackForward(log: seq<LoggedChange>, s: Attributes, b: int, c: int, a: int)
    requires b <= a && c <= a && b < c
    requires Travel(log, s, a, b).Done?
    ensures Travel(log, Travel(log, s, a, b).value, b, c) == Travel(log, s, a, c)
  {
    var s1 := Travel(log, s, a, b).value;
    var wbc, wca := Chronological(Between(log, b, c)), Chronological(Between(log, c, a));
    WindowSplit(log, b, c, a);
    ReverseConcat(wbc, wca);
    UnapplyAllConcat(Reverse(wca), Reverse(wbc), s);
    var x := UnapplyAll(Reverse(wca), s).value;
    ReplayRoundTrip(wbc, s1, x);
  }

  /** `a -> b -> c` with `a < c <= b`: forward past `c`, then back to it. */
  lemma ForwardBack(log: seq<LoggedChange>, s: Attributes, a: int, c: int, b: int)
    requires a < b && a < c <= b
    requires Travel(log, s, a, b).Done?
    ensures Travel(log, Travel(log, s, a, b).value, b, c) == Travel(log, s, a, c)
  {
    var s1 := Travel(log, s, a, b).value;
    var wac, wcb := Chronological(Between(log, a, c)), Chronological(Between(log, c, b));
    WindowSplit(log, a, c, b);
    ApplyAllConcat(wac, wcb, s);
    var x := ApplyAll(wac, s).value;
    ReplayRoundTrip(wcb, x, s1);
  }

  /** The state `as_of!` reaches does not depend on where the instance was
      moved before: travelling to `t1` and then to `t2` lands where a direct
      travel to `t2` lands. */
  lemma PathIndependence(inst: Instance, log: seq<LoggedChange>, t1: int, t2: int, now: int)
    requires AsOfBang(inst, log, t1, now).Done?
    requires AsOfBang(AsOfBang(inst, log, t1, now).value, log, t2, now).Done?
    ensures AsOfBang(inst, log, t2, now) == AsOfBang(AsOfBang(inst, log, t1, now).value, log, t2, now)
  {
    TravelCompose(log, inst.mem, CurrentTime(inst, now), t1, t2);
  }

  /** Calling `as_of!(t)` a second time changes nothing. */
  lemma AsOfBangIdempotent(inst: Instance, log: seq<LoggedChange>, t: int, now: int)
    requires AsOfBang(inst, log, t, now).Done?
    ensures AsOfBang(AsOfBang(inst, log, t, now).value, log, t, now) == AsOfBang(inst, log, t, now)
  {
  }
}

=== FILE: values.dfy ===
/** Attribute values, attribute bags and the error vocabulary shared by the
    whole model of the `Retroactive` concern. */
module Values {

  /** A column name, as used to index an ActiveRecord object (`obj[attr]`). */
  type Attr = string

  /** A column value. `Nil` is Ruby's nil: a column that was never set. */
  datatype Value = Nil | Str(s: string) | Int(i: int)

  /** The attribute bag of one record. A nil column is simply absent from the
      map, so two bags that read the same on every column are the same map. */
  type Attributes = m: map<Attr, Value> | forall a :: a in m ==> m[a] != Nil witness map[]

  /** `obj[attr]`: reading a column that holds nothing yields nil. */
  function Get(m: Attributes, a: Attr): Value
  {
    if a in m then m[a] else Nil
  }

  /** `obj[attr] = v`: overwrites one column and no other. */
  function Set(m: Attributes, a: Attr, v: Value): (r: Attributes)
    ensures Get(r, a) == v
    ensures forall b :: b != a ==> Get(r, b) == Get(m, b)
  {
    if v == Nil then m - {a} else m[a := v]
  }

  /** Attribute bags are determined by what they read on every column. */
  lemma SameReadsSameAttributes(m1: Attributes, m2: Attributes)
    requires forall a :: Get(m1, a) == Get(m2, a)
    ensures m1 == m2
  {
    forall a ensures a in m1 <==> a in m2 {
      assert Get(m1, a) == Get(m2, a);
    }
    forall a | a in m1 ensures m1[a] == m2[a] {
      assert Get(m1, a) == Get(m2, a);
    }
  }

  /** Ruby's nil-able value, used for the instance's `@frozen_at`. */
  datatype Option<T> = None | Some(value: T)

  /** The two exceptions the concern raises. */
  datatype Error =
    | CannotApplyError                   // Retroactivity::LoggedChange::CannotApplyError
    | CannotMakeFutureDatedUpdatesError  // Retroactivity::CannotMakeFutureDatedUpdatesError

  /** The outcome of a call that leaves nothing behind when it raises. */
  datatype Result<T> = Ok(value: T) | Err(error: Error)

  /** The outcome of a call that mutates its receiver in place: when it raises,
      `after` is the receiver as the exception left it. */
  datatype Outcome<T> = Done(value: T) | Raised(error: Error, after: T)
  {
    /** The receiver's state once the call has returned or raised. */
    function State(): T
    {
      if Done? then value else after
    }
  }
}
